=== FILE: README.md ===
# LiveKit connection-details route, modelled in Dafny

This project models the decision logic of the Next.js route
`app/api/connection-details/route.ts`, the broker a video-call client asks for
the details it needs to join a LiveKit room. It covers the three pieces of
that file:

- **`GET`**: the request dispatcher. It reads `roomName`, `participantName`
  and `region` from the query. It rejects a request lacking either of the
  first two with 400. Otherwise it forwards the request, by plain string
  interpolation, to `https://meet.livekit.io/api/connection-details` with a
  bearer `Authorization` header. It maps what comes back (or what is thrown)
  to a 200 with the upstream JSON unchanged, or to a 500 with a text message.
- **`getLiveKitURL`**: the region resolver. It picks the environment key
  `LIVEKIT_URL`, or the upper-cased `LIVEKIT_URL_<region>`, and returns that
  variable's value. An unset or empty variable fails with
  `"<key> is not defined"`, and there is no fallback to the default key.
- **`createParticipantToken`**: the access-token configuration. It takes the
  API key and secret from the environment, fixes a lifetime of five minutes,
  and sets a grant for the requested room with join, publish, publish-data
  and subscribe all allowed.

The route never calls `getLiveKitURL` or `createParticipantToken`. The model
keeps them as standalone functions and wires them to nothing.

Everything is pure. The environment is a `map<string, string>`. The incoming
query is the already-decoded list of `(name, value)` pairs. The network is a
function parameter `upstream` that says how `fetch` settles for a given
outbound request: `Responded(status, json)` or `Rejected(thrown)`. The
handler returns an `Exchange`: the requests it sent, in order, plus its
response. This is how the model states that at most one request is ever
sent, and none for a rejected query.

Modules (one file each):

| file | module | models |
|---|---|---|
| wrappers.dfy | `Wrappers` | `Option` (null/undefined) and `Result` (return or throw) |
| environment.dfy | `Environment` | `process.env` lookup, JavaScript truthiness of a nullable string, `${…}` of an unset variable |
| ascii.dfy | `Ascii` | `toUpperCase` on ASCII letters, and case-insensitive equality as an independent reference |
| text.dfy | `Text` | first index of a character |
| search_params.dfy | `SearchParams` | `searchParams.get` (first match); verbatim query serialization; the receiver's `&`/`=` splitting and the URL's `?`/`#` structure, as its inverse |
| region_resolver.dfy | `RegionResolver` | `getLiveKitURL` |
| participant_token.dfy | `ParticipantToken` | `createParticipantToken`, up to signing |
| connection_details.dfy | `ConnectionDetails` | `GET` |

The forwarded URL inserts query values verbatim, with no percent-encoding.
The model proves what the LiveKit service reads back from that URL. For
values free of `&`, `#`, tab, LF, CR, `+` and `%`, and with the last value not
ending in a space or control character, it reads exactly the requested
parameters (`ServiceReadsForwardedParams`). The conditions other than `&` and
`#` come from the character-level URL processing listed under "## Left out".
With no region requested, a room name `r&region=g`, where `r` and `g` are
free of `&`, `#`, tab, LF, CR, `+` and `%` and the participant is free of `&`
and `#`, makes the service read room `r` and region `g`
(`AmpersandInRoomNameInjectsRegion`). A room name `r#t`, where `r` is free of
`&`, `#`, tab, LF, CR, `+` and `%`, makes the service read room `r` and no
participant at all (`HashInRoomNameDropsParticipant`). These are
consequences of the code as written, proved about it. Whether the upstream
service tolerates them is outside this model.

Facts about `route.ts` that the model keeps as written:

- Region keys are formed by calling `toUpperCase` on the whole key
  `LIVEKIT_URL_<region>`. No other case folding is applied.
- `GET` forwards every query that passes validation to the LiveKit service. Nothing in the file calls
  `createParticipantToken` or `getLiveKitURL`.
- An unset `LIVEKIT_API_KEY` is interpolated as the text `Bearer undefined`,
  and the request is still sent. `createParticipantToken` passes the key and
  secret on as they are, and validating them is left to the SDK.
- `at.ttl = '5m'` replaces any lifetime the caller's options carried.

## Model

| member | source | states |
|---|---|---|
| ConnectionDetails.Get | app/api/connection-details/route.ts:9-46 | A query whose first `roomName` or first `participantName` is missing or empty gets 400 "Missing required query parameters", and no request is sent; this is the only way to get 400. Any other query sends exactly one request, built from those values and the first `region`, and the response is what that one request settles to. |
| ConnectionDetails.Respond | app/api/connection-details/route.ts:32-45 | The status is 200 exactly when the service answered with a status in 200-299 and a JSON body, and then the body is that document unchanged. Every other outcome gives 500 with a text body: "Failed to fetch data from LiveKit" for any non-ok status, the thrown `Error`'s own message for a rejected fetch or an unparsable body, and "Internal Server Error" for a thrown non-`Error`. |
| ConnectionDetails.Outbound | app/api/connection-details/route.ts:21-30 | The request uses method GET. Its URL is the service URL, then `?`, then the forwarded parameters serialized verbatim. Its `Authorization` header, as passed to `fetch`, is `Bearer ` followed by `LIVEKIT_API_KEY`, or `Bearer undefined` when that variable is unset. |
| ConnectionDetails.ApiUrl | app/api/connection-details/route.ts:21-23 | The interpolated URL equals the service URL + `?` + the verbatim `name=value&…` serialization of roomName, participantName and, only when non-empty, region, in that order. |
| ConnectionDetails.NonOkIsNotRetried | app/api/connection-details/route.ts:25-34 | For every non-ok status (503 included) that the service gives to the request sent, a valid query sends exactly one request and answers 500 "Failed to fetch data from LiveKit": there is no retry. |
| ConnectionDetails.OkDocumentForwarded | app/api/connection-details/route.ts:36-37 | An ok answer with a JSON body to the request sent is returned with 200 and the document unchanged, whatever the service would answer to other requests. |
| ConnectionDetails.OnlySentRequestMatters | app/api/connection-details/route.ts:16-30 | Two upstreams that agree on the requests actually sent yield identical exchanges. A rejected query therefore never depends on the upstream. |
| ConnectionDetails.ServiceReadsForwardedParams | app/api/connection-details/route.ts:21-23 | For values free of `&` and `#`, free of tab, LF, CR, `+` and `%`, and with the value that ends the URL not ending in a space or control character, the service splits the URL's query back into exactly the forwarded pairs. It then reads back the requested room, participant and (only if non-empty) region. |
| ConnectionDetails.AmpersandInRoomNameInjectsRegion | app/api/connection-details/route.ts:21-23 | Because nothing is encoded, a room name `r&region=g` makes the service read room `r` and region `g`, even though no region was requested. |
| ConnectionDetails.HashInRoomNameDropsParticipant | app/api/connection-details/route.ts:21-23 | Because nothing is encoded, a room name `r#t` ends the query at `#`: the service reads room `r` and no participant. |
| SearchParams.Get | app/api/connection-details/route.ts:12-14 | `searchParams.get`: returns null exactly when no pair has the name. Otherwise it returns the value of the first pair with that name. |
| SearchParams.ParseSerialize | app/api/connection-details/route.ts:21-23 | Splitting at `&` and at the first `=` inverts the verbatim serialization, for every list of pairs whose names hold neither `&` nor `=` and whose values hold no `&`. |
| Ascii.Upper | app/api/connection-details/route.ts:68 | Upper-casing keeps the length and maps each character on its own: `a`-`z` become `A`-`Z`, and everything else is unchanged. |
| Ascii.UpperAgreesIff | app/api/connection-details/route.ts:68 | Under the ASCII-only mapping, two strings upper-case to the same string exactly when they differ only in the case of ASCII letters. |
| Ascii.UpperIdempotent | app/api/connection-details/route.ts:68 | Upper-casing twice is the same as upper-casing once. |
| RegionResolver.TargetKey | app/api/connection-details/route.ts:66-69 | A missing or empty region selects `LIVEKIT_URL`. Any other region selects `LIVEKIT_URL_` followed by the upper-cased region, since upper-casing the prefix leaves it unchanged. |
| RegionResolver.GetLiveKitUrl | app/api/connection-details/route.ts:65-75 | Succeeds exactly when the target key is set to a non-empty value, and then returns that value. Otherwise it fails with "<target key> is not defined". |
| RegionResolver.DefaultWithoutRegion | app/api/connection-details/route.ts:66-74 | With no region, the result is the `LIVEKIT_URL` value when it is set and non-empty, and otherwise the failure "LIVEKIT_URL is not defined". |
| RegionResolver.RegionKeyIsNotDefault | app/api/connection-details/route.ts:66-68 | A non-empty region never selects the default key. |
| RegionResolver.NoFallbackToDefault | app/api/connection-details/route.ts:67-73 | Once a region is given, setting, changing or removing `LIVEKIT_URL` leaves the result unchanged. An unconfigured region fails with the message naming `LIVEKIT_URL_<REGION>`, even when the default is set. |
| RegionResolver.RegionKeysAgreeIff | app/api/connection-details/route.ts:67-69 | Under the ASCII-only mapping, two non-empty regions select the same key exactly when they differ only in the case of ASCII letters. |
| RegionResolver.ResolveIgnoresCase | app/api/connection-details/route.ts:67-74 | Under the ASCII-only mapping, regions that differ only in the case of ASCII letters resolve to the same result. |
| RegionResolver.UnsetEuRegionFails | app/api/connection-details/route.ts:68-72 | Region `eu` with `LIVEKIT_URL_EU` unset fails with "LIVEKIT_URL_EU is not defined", whatever else is configured. |
| ParticipantToken.ParticipantGrant | app/api/connection-details/route.ts:51-57 | The grant allows every capability (join, publish, publish data, subscribe) in the given room. |
| ParticipantToken.CreateParticipantToken | app/api/connection-details/route.ts:48-58 | The token carries the environment's `LIVEKIT_API_KEY` and `LIVEKIT_API_SECRET` as they are (possibly unset) and the caller's options record. Its lifetime is 300 seconds whatever lifetime those options asked for. Its grant names the requested room, with all four permissions true. |
| ParticipantToken.CallerTtlOverridden | app/api/connection-details/route.ts:49-50 | The token as constructed carries the lifetime from the caller's options when it is positive, and the SDK default when it is 0, because the SDK treats a zero lifetime as unset; after `at.ttl = '5m'` it carries 300 seconds instead, whatever that lifetime was. |
| ParticipantToken.GrantScopedToRoom | app/api/connection-details/route.ts:51-57 | The issued grant allows a capability in a room exactly when that room is the requested one. |

## Left out

- `fetch`, `NextRequest` and `NextResponse`: network and framework plumbing. They are replaced by the `upstream` parameter and the `Response` record. Awaiting is not modelled, because the handler is a function of how the fetch settles. Header values are modelled as passed to `fetch`, before its `Headers` normalization strips leading and trailing whitespace (so an empty `LIVEKIT_API_KEY` goes out as `Bearer`).
- JSON structure: a document is an opaque string that passes through unchanged. `NextResponse.json` re-serializing a parsed value is assumed to give back the same document.
- Reading `process.env` at module load (route.ts:4-6): the environment is one immutable map, passed to each operation.
- JWT signing (`toJwt`), the SDK's own validation in the `AccessToken` constructor, and the expiry the SDK derives from the lifetime. These are foreign SDK code. The model stops at the token's configuration, and `toJwt`'s promise of a string is not represented.
- `console.error` logging (route.ts:40).
- Character-level URL processing: the incoming query is taken as decoded pairs, and the receiver's parse of the forwarded URL only splits at `?`, `#`, `&` and `=`. The WHATWG URL parser deletes tab, LF and CR, strips trailing spaces and C0 controls from the URL, and percent-encodes some characters; the form decoder turns `+` into a space and decodes `%` escapes. The read-back lemmas therefore require values free of tab, LF, CR, `+` and `%`, and a last value that does not end in a space or control character; other values are not covered.
- The SDK's `AccessTokenOptions` lifetime may be a number of seconds or a duration string such as `'1h'`; the model keeps it as seconds. The SDK's default lifetime is represented as `None`, not as a number.
- Ascii.Upper: maps only the ASCII letters `a`-`z`. JavaScript's `toUpperCase` also maps other Unicode letters, some of them to several characters (for example `ß` to `SS`).
- Timeouts and retries: the code has none.

=== FILE: ascii.dfy ===
/** `String.prototype.toUpperCase`, restricted to ASCII letters: every other
    character is left as it is. */
module Ascii {

  predicate IsLower(c: char)
  {
    'a' <= c <= 'z'
  }

  predicate IsUpper(c: char)
  {
    'A' <= c <= 'Z'
  }

  /** Upper-case mapping of one character. */
  function UpperChar(c: char): (u: char)
    ensures !IsLower(u)
    ensures IsLower(c) ==> IsUpper(u) && u as int + 32 == c as int
    ensures !IsLower(c) ==> u == c
  {
    if IsLower(c) then (c as int - 32) as char else c
  }

  /** The upper-cased string: same length, mapped character by character. */
  function Upper(s: string): (u: string)
    ensures |u| == |s|
    ensures forall i :: 0 <= i < |s| ==> u[i] == UpperChar(s[i])
  {
    if s == [] then [] else [UpperChar(s[0])] + Upper(s[1..])
  }

  /** Two characters are the same letter up to case, or simply equal. This is
      the reference notion of "differ only in letter case", stated without
      `UpperChar`. */
  predicate SameCharIgnoringCase(x: char, y: char)
  {
    || x == y
    || (IsLower(x) && IsUpper(y) && x as int - y as int == 32)
    || (IsUpper(x) && IsLower(y) && y as int - x as int == 32)
  }

  /** Two strings that differ only in the case of ASCII letters. */
  predicate SameIgnoringCase(a: string, b: string)
  {
    |a| == |b| && forall i :: 0 <= i < |a| ==> SameCharIgnoringCase(a[i], b[i])
  }

  lemma UpperCharAgreesIff(x: char, y: char)
    ensures UpperChar(x) == UpperChar(y) <==> SameCharIgnoringCase(x, y)
  {
  }

  /** Upper-casing identifies exactly the strings that differ only in letter
      case: no more (no two different words collapse) and no fewer. */
  lemma UpperAgreesIff(a: string, b: string)
    ensures Upper(a) == Upper(b) <==> SameIgnoringCase(a, b)
  {
    if Upper(a) == Upper(b) {
      forall i | 0 <= i < |a|
        ensures SameCharIgnoringCase(a[i], b[i])
      {
        assert Upper(a)[i] == Upper(b)[i];
        UpperCharAgreesIff(a[i], b[i]);
      }
    }
    if SameIgnoringCase(a, b) {
      forall i | 0 <= i < |a|
        ensures Upper(a)[i] == Upper(b)[i]
      {
        UpperCharAgreesIff(a[i], b[i]);
      }
    }
  }

  /** Upper-casing is idempotent. */
  lemma UpperIdempotent(s: string)
    ensures Upper(Upper(s)) == Upper(s)
  {
  }

  /** Upper-casing distributes over concatenation. */
  lemma UpperAppend(a: string, b: string)
    ensures Upper(a + b) == Upper(a) + Upper(b)
  {
  }

  /** A string with no lower-case letter is its own upper-case form. */
  lemma UpperFixes(s: string)
    requires forall i :: 0 <= i < |s| ==> !IsLower(s[i])
    ensures Upper(s) == s
  {
  }
}

=== FILE: connection_details.dfy ===
/** The `GET` handler of app/api/connection-details/route.ts (lines 9-46):
    validate the query, forward it to the LiveKit connection-details
    service, and map every outcome to a response. The network call is a
    parameter: `upstream` says how the service settles a given request, and
    the handler reports the requests it sent alongside its response. */
module ConnectionDetails {
  import opened Wrappers
  import opened Environment
  import SearchParams

  /** The service every request is forwarded to,
      `https://meet.livekit.io/api/connection-details`. */
  const LiveKitApiUrl := LiveKitOrigin + LiveKitApiPath
  const LiveKitOrigin := "https://meet.livekit.io"
  const LiveKitApiPath := "/api/connection-details"

  const MissingParameters := "Missing required query parameters"
  const UpstreamFailure := "Failed to fetch data from LiveKit"
  const InternalServerError := "Internal Server Error"

  /** A JSON document, as `response.json()` yields it and `NextResponse.json`
      serializes it again; its structure is never inspected here. */
  type Json = string

  /** The outbound request: HTTP method, full URL, `Authorization` header. */
  datatype OutboundRequest = OutboundRequest(verb: string, url: string, authorization: string)

  /** A value thrown inside the `try` block: an `Error` with its message, or
      anything else. */
  datatype Thrown = ErrorObject(message: string) | NonError

  /** Reading a response body as JSON: the document, or the `Error` thrown
      for a body that is not JSON. */
  datatype JsonRead = Parsed(doc: Json) | Unparsable(message: string)

  /** How `fetch` settles: with a response (its status and what reading its
      body as JSON gives), or by rejecting with a thrown value. */
  datatype FetchOutcome = Responded(status: int, json: JsonRead) | Rejected(reason: Thrown)

  datatype Body = JsonBody(doc: Json) | TextBody(text: string)

  datatype Response = Response(status: int, body: Body)

  /** The requests the handler sent, in order, and the response it returned. */
  datatype Exchange = Exchange(sent: seq<OutboundRequest>, response: Response)

  /** `response.ok`: a status in the range 200-299. */
  predicate IsOk(status: int)
  {
    200 <= status <= 299
  }

  /** The parameters the forwarded URL carries, in order; `region` only when
      it is non-empty. */
  function ForwardedParams(room: string, participant: string, region: Option<string>): SearchParams.Params
  {
    [("roomName", room), ("participantName", participant)]
    + (if Truthy(region) then [("region", region.value)] else [])
  }

  /** The forwarded URL, built by string interpolation with nothing encoded.
      It is the service URL followed by the forwarded parameters serialized
      verbatim. */
  function ApiUrl(room: string, participant: string, region: Option<string>): (url: string)
    ensures url == LiveKitApiUrl + "?" + SearchParams.Serialize(ForwardedParams(room, participant, region))
  {
    ForwardedSerialization(room, participant, region);
    RegroupQuery(LiveKitApiUrl, "?roomName=", "roomName=", room, "&participantName=", participant,
                 if Truthy(region) then "&region=" + region.value else "");
    LiveKitApiUrl + "?roomName=" + room + "&participantName=" + participant
    + (if Truthy(region) then "&region=" + region.value else "")
  }

  lemma RegroupQuery(base: string, k0q: string, k0: string, room: string, k1: string, participant: string, rest: string)
    requires k0q == "?" + k0
    ensures base + k0q + room + k1 + participant + rest == base + "?" + (k0 + room + k1 + participant + rest)
  {
  }

  lemma ForwardedSerialization(room: string, participant: string, region: Option<string>)
    ensures SearchParams.Serialize(ForwardedParams(room, participant, region))
            == "roomName=" + room + "&participantName=" + participant
               + (if Truthy(region) then "&region=" + region.value else "")
  {
    var p0, p1 := ("roomName", room), ("participantName", participant);
    assert "roomName" + "=" == "roomName=";
    assert "&" + "participantName" + "=" == "&participantName=";
    if Truthy(region) {
      assert "&" + "region" + "=" == "&region=";
      SearchParams.SerializeThree(p0, p1, ("region", region.value));
    } else {
      SearchParams.SerializeTwo(p0, p1);
    }
  }

  /** The request `fetch` is given: GET, the forwarded URL, and a bearer
      header carrying the API key (the text "undefined" when the key is not
      set). The header value is the one passed to `fetch`, before `Headers`
      strips its surrounding whitespace. */
  function Outbound(env: Env, room: string, participant: string, region: Option<string>): (req: OutboundRequest)
    ensures req.verb == "GET"
    ensures req.url == LiveKitApiUrl + "?" + SearchParams.Serialize(ForwardedParams(room, participant, region))
    ensures "LIVEKIT_API_KEY" in env ==> req.authorization == "Bearer " + env["LIVEKIT_API_KEY"]
    ensures "LIVEKIT_API_KEY" !in env ==> req.authorization == "Bearer undefined"
  {
    OutboundRequest("GET", ApiUrl(room, participant, region),
                    "Bearer " + Interpolate(Lookup(env, "LIVEKIT_API_KEY")))
  }

  /** The rest of the `try` block once `fetch` has settled: a rejection
      propagates, a non-ok status throws the fixed `Error`, an ok response
      yields its JSON body. */
  function Settle(outcome: FetchOutcome): Result<Json, Thrown>
  {
    match outcome
    case Rejected(t) => Failure(t)
    case Responded(status, json) =>
      if !IsOk(status) then Failure(ErrorObject(UpstreamFailure))
      else match json
        case Parsed(doc) => Success(doc)
        case Unparsable(m) => Failure(ErrorObject(m))
  }

  /** The `catch` block. */
  function Catch(t: Thrown): Response
  {
    match t
    case ErrorObject(m) => Response(500, TextBody(m))
    case NonError => Response(500, TextBody(InternalServerError))
  }

  /** The response for a settled `fetch`: 200 with the upstream document
      unchanged exactly when the service answered ok with JSON; otherwise 500
      with a text message chosen by what went wrong. */
  function Respond(outcome: FetchOutcome): (resp: Response)
    ensures resp.status == 200 || resp.status == 500
    ensures resp.status == 200 <==> outcome.Responded? && IsOk(outcome.status) && outcome.json.Parsed?
    ensures resp.status == 200 ==> resp.body == JsonBody(outcome.json.doc)
    ensures resp.status == 500 ==> resp.body.TextBody?
    ensures outcome.Responded? && !IsOk(outcome.status) ==> resp.body == TextBody(UpstreamFailure)
    ensures outcome.Responded? && IsOk(outcome.status) && outcome.json.Unparsable?
            ==> resp.body == TextBody(outcome.json.message)
    ensures outcome.Rejected? && outcome.reason.ErrorObject? ==> resp.body == TextBody(outcome.reason.message)
    ensures outcome == Rejected(NonError) ==> resp.body == TextBody(InternalServerError)
  {
    match Settle(outcome)
    case Success(doc) => Response(200, JsonBody(doc))
    case Failure(t) => Catch(t)
  }

  /** The query is acceptable when both required parameters are non-empty. */
  predicate HasRequired(query: SearchParams.Params)
  {
    Truthy(SearchParams.Get(query, "roomName")) && Truthy(SearchParams.Get(query, "participantName"))
  }

  /** `GET`: a query lacking `roomName` or `participantName` (missing or
      empty) is answered 400 without contacting the service; any other query
      sends exactly one request, built from the first value of each
      parameter, and the response is whatever that one request settles to. */
  function Get(env: Env, query: SearchParams.Params, upstream: OutboundRequest -> FetchOutcome): (x: Exchange)
    ensures |x.sent| <= 1
    ensures x.response.status == 400 <==> !HasRequired(query)
    ensures !HasRequired(query) ==> x.sent == [] && x.response.body == TextBody(MissingParameters)
    ensures HasRequired(query) ==>
              && |x.sent| == 1
              && x.sent[0] == Outbound(env, SearchParams.Get(query, "roomName").value,
                                       SearchParams.Get(query, "participantName").value,
                                       SearchParams.Get(query, "region"))
              && x.response == Respond(upstream(x.sent[0]))
  {
    var roomName := SearchParams.Get(query, "roomName");
    var participantName := SearchParams.Get(query, "participantName");
    var region := SearchParams.Get(query, "region");
    if !Truthy(roomName) || !Truthy(participantName) then
      Exchange([], Response(400, TextBody(MissingParameters)))
    else
      var request := Outbound(env, roomName.value, participantName.value, region);
      Exchange([request], Respond(upstream(request)))
  }

  /** A non-ok answer to the request sent, whatever its status, ends the
      request with the fixed 500 message after a single attempt: nothing is
      retried. */
  lemma NonOkIsNotRetried(env: Env, query: SearchParams.Params,
                          upstream: OutboundRequest -> FetchOutcome, status: int, json: JsonRead)
    requires HasRequired(query)
    requires !IsOk(status)
    requires upstream(Outbound(env, SearchParams.Get(query, "roomName").value,
                               SearchParams.Get(query, "participantName").value,
                               SearchParams.Get(query, "region"))) == Responded(status, json)
    ensures |Get(env, query, upstream).sent| == 1
    ensures Get(env, query, upstream).response == Response(500, TextBody(UpstreamFailure))
  {
  }

  /** An ok answer to the request sent, with a JSON body, is returned with
      status 200 and the body unchanged. */
  lemma OkDocumentForwarded(env: Env, query: SearchParams.Params,
                            upstream: OutboundRequest -> FetchOutcome, status: int, doc: Json)
    requires HasRequired(query)
    requires IsOk(status)
    requires upstream(Outbound(env, SearchParams.Get(query, "roomName").value,
                               SearchParams.Get(query, "participantName").value,
                               SearchParams.Get(query, "region"))) == Responded(status, Parsed(doc))
    ensures Get(env, query, upstream).response == Response(200, JsonBody(doc))
  {
  }

  /** The service is consulted about one request only: two services that
      answer the requests actually sent alike give identical exchanges, and
      a rejected query does not consult the service at all. */
  lemma OnlySentRequestMatters(env: Env, query: SearchParams.Params,
                               u1: OutboundRequest -> FetchOutcome, u2: OutboundRequest -> FetchOutcome)
    requires forall i :: 0 <= i < |Get(env, query, u1).sent| ==> u1(Get(env, query, u1).sent[i]) == u2(Get(env, query, u1).sent[i])
    ensures Get(env, query, u1) == Get(env, query, u2)
  {
    if HasRequired(query) {
      var x := Get(env, query, u1);
      assert u1(x.sent[0]) == u2(x.sent[0]);
    }
  }

  /** Read back by the service, the forwarded URL carries exactly the
      requested parameters, provided no value contains '&' or '#', no value
      holds a character the URL or form parser removes or rewrites, and the
      value that ends the URL does not end in a space or control character. */
  lemma ServiceReadsForwardedParams(room: string, participant: string, region: Option<string>)
    requires SearchParams.PlainValue(room) && '#' !in room
    requires SearchParams.PlainValue(participant) && '#' !in participant
    requires region.Some? ==> SearchParams.PlainValue(region.value) && '#' !in region.value
    requires SearchParams.SurvivesTransport(room) && SearchParams.SurvivesTransport(participant)
    requires region.Some? ==> SearchParams.SurvivesTransport(region.value)
    requires if Truthy(region) then SearchParams.EndsVisibly(region.value) else SearchParams.EndsVisibly(participant)
    ensures SearchParams.Parse(SearchParams.QueryOf(ApiUrl(room, participant, region)))
            == ForwardedParams(room, participant, region)
    ensures var read := SearchParams.Parse(SearchParams.QueryOf(ApiUrl(room, participant, region)));
            && SearchParams.Get(read, "roomName") == Some(room)
            && SearchParams.Get(read, "participantName") == Some(participant)
            && SearchParams.Get(read, "region") == (if Truthy(region) then region else None)
  {
    var ps := ForwardedParams(room, participant, region);
    var q := SearchParams.Serialize(ps);
    ForwardedPlain(room, participant, region);
    SearchParams.SerializeAvoids(ps, '#');
    ServiceUrlIsBare();
    SearchParams.QueryOfUrl(LiveKitApiUrl, q);
    SearchParams.ParseSerialize(ps);
    assert SearchParams.Parse(SearchParams.QueryOf(ApiUrl(room, participant, region))) == ps;
    ForwardedLookup(room, participant, region);
  }

  lemma ForwardedLookup(room: string, participant: string, region: Option<string>)
    ensures var ps := ForwardedParams(room, participant, region);
            && SearchParams.Get(ps, "roomName") == Some(room)
            && SearchParams.Get(ps, "participantName") == Some(participant)
            && SearchParams.Get(ps, "region") == (if Truthy(region) then region else None)
  {
    var ps := ForwardedParams(room, participant, region);
    assert "region" != "roomName" && "region" != "participantName";
    assert SearchParams.Get(ps, "region") == SearchParams.Get(ps[1..], "region");
    assert SearchParams.Get(ps[1..], "region") == SearchParams.Get(ps[2..], "region");
  }

  lemma ForwardedPlain(room: string, participant: string, region: Option<string>)
    requires SearchParams.PlainValue(room) && '#' !in room
    requires SearchParams.PlainValue(participant) && '#' !in participant
    requires region.Some? ==> SearchParams.PlainValue(region.value) && '#' !in region.value
    ensures SearchParams.Plain(ForwardedParams(room, participant, region))
    ensures forall i :: 0 <= i < |ForwardedParams(room, participant, region)| ==>
              '#' !in ForwardedParams(room, participant, region)[i].0
              && '#' !in ForwardedParams(room, participant, region)[i].1
  {
    assert SearchParams.PlainName("roomName") && '#' !in "roomName";
    assert SearchParams.PlainName("participantName") && '#' !in "participantName";
    assert SearchParams.PlainName("region") && '#' !in "region";
  }

  /** Nothing is encoded, so a room name holding '&' smuggles in parameters
      of its own: asked for room "lobby&region=eu" with no region, the
      service reads room "lobby" in region "eu". Both parts must be free of
      separators and of characters the URL and form parsers rewrite; with
      "lobby&region=us&region=eu" the first match, "us", would win. */
  lemma AmpersandInRoomNameInjectsRegion(room: string, injected: string, participant: string)
    requires SearchParams.PlainValue(room) && '#' !in room
    requires SearchParams.PlainValue(injected) && '#' !in injected
    requires SearchParams.PlainValue(participant) && '#' !in participant
    requires SearchParams.SurvivesTransport(room) && SearchParams.SurvivesTransport(injected)
    ensures var read := SearchParams.Parse(SearchParams.QueryOf(ApiUrl(room + "&region=" + injected, participant, None)));
            && SearchParams.Get(read, "roomName") == Some(room)
            && SearchParams.Get(read, "region") == Some(injected)
  {
    var ps := InjectedParams(room, injected, participant);
    var q := SearchParams.Serialize(ps);
    InjectedSerialization(room, injected, participant);
    ServiceUrlIsBare();
    SearchParams.QueryOfUrl(LiveKitApiUrl, q);
    SearchParams.ParseSerialize(ps);
    assert "region" != "roomName";
    assert SearchParams.Get(ps, "region") == SearchParams.Get(ps[1..], "region");
  }

  /** What the service reads when the room name carries "&region=". */
  function InjectedParams(room: string, injected: string, participant: string): SearchParams.Params
  {
    [("roomName", room), ("region", injected), ("participantName", participant)]
  }

  lemma InjectedSerialization(room: string, injected: string, participant: string)
    requires SearchParams.PlainValue(room) && '#' !in room
    requires SearchParams.PlainValue(injected) && '#' !in injected
    requires SearchParams.PlainValue(participant) && '#' !in participant
    ensures ApiUrl(room + "&region=" + injected, participant, None)
            == LiveKitApiUrl + "?" + SearchParams.Serialize(InjectedParams(room, injected, participant))
    ensures SearchParams.Plain(InjectedParams(room, injected, participant))
    ensures '#' !in SearchParams.Serialize(InjectedParams(room, injected, participant))
  {
    InjectedUrl(room, injected, participant);
    InjectedPlain(room, injected, participant);
  }

  lemma InjectedUrl(room: string, injected: string, participant: string)
    ensures ApiUrl(room + "&region=" + injected, participant, None)
            == LiveKitApiUrl + "?" + SearchParams.Serialize(InjectedParams(room, injected, participant))
  {
    var ps := InjectedParams(room, injected, participant);
    var k0, k1, k2 := "roomName=", "&region=", "&participantName=";
    SearchParams.SerializeThree(ps[0], ps[1], ps[2]);
    assert "roomName" + "=" == k0;
    assert "&" + "region" + "=" == k1;
    assert "&" + "participantName" + "=" == k2;
    ForwardedSerialization(room + k1 + injected, participant, None);
    RegroupInjected(k0, room, k1, injected, k2, participant);
  }

  lemma RegroupInjected(k0: string, room: string, k1: string, injected: string, k2: string, participant: string)
    ensures k0 + (room + k1 + injected) + k2 + participant + "" == k0 + room + k1 + injected + k2 + participant
  {
  }

  lemma InjectedPlain(room: string, injected: string, participant: string)
    requires SearchParams.PlainValue(room) && '#' !in room
    requires SearchParams.PlainValue(injected) && '#' !in injected
    requires SearchParams.PlainValue(participant) && '#' !in participant
    ensures SearchParams.Plain(InjectedParams(room, injected, participant))
    ensures '#' !in SearchParams.Serialize(InjectedParams(room, injected, participant))
  {
    var ps := InjectedParams(room, injected, participant);
    assert SearchParams.Plain(ps) by {
      assert SearchParams.PlainName("roomName") && SearchParams.PlainName("region");
      assert SearchParams.PlainName("participantName");
    }
    assert forall i :: 0 <= i < |ps| ==> '#' !in ps[i].0 && '#' !in ps[i].1 by {
      assert '#' !in "roomName" && '#' !in "region" && '#' !in "participantName";
    }
    SearchParams.SerializeAvoids(ps, '#');
  }

  /** A room name holding '#' starts the URL's fragment: the service reads
      the room name up to the '#' and no participant at all, provided that
      part holds no '&' (which could smuggle in a participant of its own)
      and no character the URL and form parsers rewrite. */
  lemma HashInRoomNameDropsParticipant(room: string, tail: string, participant: string)
    requires SearchParams.PlainValue(room) && '#' !in room
    requires SearchParams.SurvivesTransport(room)
    ensures var read := SearchParams.Parse(SearchParams.QueryOf(ApiUrl(room + "#" + tail, participant, None)));
            && SearchParams.Get(read, "roomName") == Some(room)
            && SearchParams.Get(read, "participantName") == None
  {
    var p := ("roomName", room);
    QueryCutAtHash(room, tail, participant);
    assert SearchParams.PlainName("roomName");
    SearchParams.ParseOnePair(p);
    assert "participantName" != "roomName";
  }

  lemma QueryCutAtHash(room: string, tail: string, participant: string)
    requires '#' !in room
    ensures SearchParams.QueryOf(ApiUrl(room + "#" + tail, participant, None)) == SearchParams.Pair(("roomName", room))
  {
    var key := "roomName=";
    HashUrlShape(room, tail, participant);
    ServiceUrlIsBare();
    assert '#' !in key;
    assert '#' !in key + room;
    SearchParams.QueryOfUrlWithFragment(LiveKitApiUrl, key + room, tail + "&participantName=" + participant);
    assert SearchParams.Pair(("roomName", room)) == key + room;
  }

  lemma HashUrlShape(room: string, tail: string, participant: string)
    ensures ApiUrl(room + "#" + tail, participant, None)
            == (LiveKitApiUrl + "?" + ("roomName=" + room)) + "#" + (tail + "&participantName=" + participant)
  {
    ForwardedSerialization(room + "#" + tail, participant, None);
    RegroupAtHash(LiveKitApiUrl, "roomName=", room, tail, "&participantName=", participant);
  }

  lemma RegroupAtHash(base: string, key: string, room: string, tail: string, mid: string, participant: string)
    ensures base + "?" + (key + (room + "#" + tail) + mid + participant + "")
            == (base + "?" + (key + room)) + "#" + (tail + mid + participant)
  {
  }

  /** The service URL has neither a query nor a fragment of its own. */
  lemma ServiceUrlIsBare()
    ensures '?' !in LiveKitApiUrl
    ensures '#' !in LiveKitApiUrl
  {
    assert '?' !in LiveKitOrigin && '#' !in LiveKitOrigin;
    assert '?' !in LiveKitApiPath && '#' !in LiveKitApiPath;
  }
}

=== FILE: environment.dfy ===
/** The process environment and the two pieces of JavaScript semantics the
    route relies on when it reads strings that may be missing. */
module Environment {
  import opened Wrappers

  /** `process.env`: read once, never written while a request runs. */
  type Env = map<string, string>

  /** `process.env[key]`: `undefined` when the variable is not set. */
  function Lookup(env: Env, key: string): (v: Option<string>)
    ensures v.Some? <==> key in env
    ensures v.Some? ==> v.value == env[key]
  {
    if key in env then Some(env[key]) else None
  }

  /** JavaScript truthiness of a string that may be `null`/`undefined`:
      only a non-empty string is truthy, so `!s` holds for a missing value
      and for "" alike. */
  predicate Truthy(s: Option<string>)
  {
    s.Some? && s.value != ""
  }

  /** What the template literal `${v}` produces for an environment value:
      the string itself, or "undefined" when the variable is not set. */
  function Interpolate(v: Option<string>): (t: string)
    ensures v.Some? ==> t == v.value
  {
    match v
    case Some(s) => s
    case None => "undefined"
  }
}

=== FILE: participant_token.dfy ===
/** `createParticipantToken` (app/api/connection-details/route.ts:48-60): the
    claims an access token is given before it is signed. Signing (`toJwt`)
    belongs to the server SDK and is not modelled; what is modelled is the
    token's configuration: issuer key and secret, the caller's options, the
    lifetime and the room grant. */
module ParticipantToken {
  import opened Wrappers
  import opened Environment

  /** The lifetime `'5m'`, in seconds. */
  const TokenTtlSeconds: nat := 5 * 60

  /** The room grant: which room, and what a participant may do there. */
  datatype VideoGrant = VideoGrant(
    room: string,
    roomJoin: bool,
    canPublish: bool,
    canPublishData: bool,
    canSubscribe: bool)

  /** The caller-supplied token options: identity, display name, metadata,
      attributes, and a lifetime in seconds (the SDK also accepts it written
      as a duration string such as '1h'). */
  datatype UserInfo = UserInfo(
    identity: Option<string>,
    name: Option<string>,
    metadata: Option<string>,
    attributes: Option<map<string, string>>,
    ttl: Option<nat>)

  /** An access token as configured before signing. A lifetime or grant that
      was never set is `None` (the SDK then applies its own default lifetime
      and no room grant). */
  datatype UnsignedToken = UnsignedToken(
    apiKey: Option<string>,
    apiSecret: Option<string>,
    userInfo: UserInfo,
    ttlSeconds: Option<nat>,
    video: Option<VideoGrant>)

  /** `new AccessToken(API_KEY, API_SECRET, userInfo)`: key and secret are
      the environment's values, possibly `undefined`; the lifetime starts as
      the one the caller's options carry when it is truthy, and is otherwise
      left to the SDK's default (`options?.ttl || defaultTTL`, so a lifetime
      of 0 is replaced too). */
  function NewAccessToken(env: Env, userInfo: UserInfo): (at: UnsignedToken)
  {
    var ttl := if userInfo.ttl == Some(0) then None else userInfo.ttl;
    UnsignedToken(Lookup(env, "LIVEKIT_API_KEY"), Lookup(env, "LIVEKIT_API_SECRET"), userInfo, ttl, None)
  }

  /** The four things a room grant can allow. */
  datatype Capability = Join | Publish | PublishData | Subscribe

  /** Whether `grant` allows `cap` in `room`: the grant must name that room
      and set the capability's flag. */
  predicate Permits(grant: VideoGrant, room: string, cap: Capability)
  {
    && grant.room == room
    && match cap
       case Join => grant.roomJoin
       case Publish => grant.canPublish
       case PublishData => grant.canPublishData
       case Subscribe => grant.canSubscribe
  }

  /** The grant literal built by `createParticipantToken`. */
  function ParticipantGrant(roomName: string): (g: VideoGrant)
    ensures forall cap :: Permits(g, roomName, cap)
  {
    VideoGrant(room := roomName, roomJoin := true, canPublish := true,
               canPublishData := true, canSubscribe := true)
  }

  /** The token for `userInfo` in `roomName`: to be signed with the
      configured key and secret, living five minutes, granting every
      capability in that room. */
  function CreateParticipantToken(env: Env, userInfo: UserInfo, roomName: string): (t: UnsignedToken)
    ensures t.apiKey == Lookup(env, "LIVEKIT_API_KEY")
    ensures t.apiSecret == Lookup(env, "LIVEKIT_API_SECRET")
    ensures t.userInfo == userInfo
    ensures t.ttlSeconds == Some(300)
    ensures t.video.Some? && t.video.value.room == roomName
    ensures t.video.Some? && t.video.value.roomJoin && t.video.value.canPublish
            && t.video.value.canPublishData && t.video.value.canSubscribe
  {
    var at := NewAccessToken(env, userInfo);
    var at := at.(ttlSeconds := Some(TokenTtlSeconds));
    at.(video := Some(ParticipantGrant(roomName)))
  }

  /** `at.ttl = '5m'` overrides whatever lifetime the caller asked for: the
      freshly constructed token carries the caller's lifetime when it is
      positive and the SDK default (`None`) when it is 0, and the returned
      one carries five minutes either way. */
  lemma CallerTtlOverridden(env: Env, userInfo: UserInfo, roomName: string, asked: nat)
    requires userInfo.ttl == Some(asked)
    ensures NewAccessToken(env, userInfo).ttlSeconds == (if asked > 0 then Some(asked) else None)
    ensures CreateParticipantToken(env, userInfo, roomName).ttlSeconds == Some(300)
  {
  }

  /** The issued grant is scoped to exactly one room: every capability holds
      in the requested room and none holds in any other. */
  lemma GrantScopedToRoom(env: Env, userInfo: UserInfo, roomName: string, other: string, cap: Capability)
    ensures Permits(CreateParticipantToken(env, userInfo, roomName).video.value, other, cap) <==> other == roomName
  {
  }
}

=== FILE: region_resolver.dfy ===
/** `getLiveKitURL` (app/api/connection-details/route.ts:65-75): the server
    URL for an optional region, read from the environment under a key built
    from the region's name. */
module RegionResolver {
  import opened Wrappers
  import opened Environment
  import Ascii

  /** The key consulted when no region is given. */
  const DefaultUrlKey := "LIVEKIT_URL"

  /** The prefix a region's name is appended to before upper-casing. */
  const RegionKeyPrefix := "LIVEKIT_URL_"

  /** The environment key for `region`: the default key for a missing or
      empty region, otherwise the upper-cased `LIVEKIT_URL_<region>`. The
      prefix is upper case already, so only the region's letters change. */
  function TargetKey(region: Option<string>): (key: string)
    ensures !Truthy(region) ==> key == DefaultUrlKey
    ensures Truthy(region) ==> key == RegionKeyPrefix + Ascii.Upper(region.value)
  {
    if Truthy(region) then
      var key := Ascii.Upper(RegionKeyPrefix + region.value);
      PrefixUnchangedByUpper(region.value);
      key
    else DefaultUrlKey
  }

  /** Upper-casing `LIVEKIT_URL_<g>` changes only the `<g>` part. */
  lemma PrefixUnchangedByUpper(g: string)
    ensures Ascii.Upper(RegionKeyPrefix + g) == RegionKeyPrefix + Ascii.Upper(g)
  {
    var front, back := "LIVEKIT_", "URL_";
    assert RegionKeyPrefix == front + back;
    assert forall i :: 0 <= i < |front| ==> !Ascii.IsLower(front[i]);
    assert forall i :: 0 <= i < |back| ==> !Ascii.IsLower(back[i]);
    Ascii.UpperFixes(RegionKeyPrefix);
    Ascii.UpperAppend(RegionKeyPrefix, g);
  }

  /** The message of the `Error` thrown for an unusable key. */
  function NotDefined(key: string): string
  {
    key + " is not defined"
  }

  /** The configured URL under the target key, or the failure naming that key
      when the variable is unset or empty. */
  function GetLiveKitUrl(env: Env, region: Option<string>): (r: Result<string, string>)
    ensures r.Success? <==> TargetKey(region) in env && env[TargetKey(region)] != ""
    ensures r.Success? ==> r.value == env[TargetKey(region)]
    ensures r.Failure? ==> r.error == NotDefined(TargetKey(region))
  {
    var targetKey := TargetKey(region);
    var url := Lookup(env, targetKey);
    if !Truthy(url) then Failure(NotDefined(targetKey)) else Success(url.value)
  }

  /** With no region (missing or empty) the default key decides alone. */
  lemma DefaultWithoutRegion(env: Env, region: Option<string>)
    requires !Truthy(region)
    ensures DefaultUrlKey in env && env[DefaultUrlKey] != ""
            ==> GetLiveKitUrl(env, region) == Success(env[DefaultUrlKey])
    ensures !(DefaultUrlKey in env && env[DefaultUrlKey] != "")
            ==> GetLiveKitUrl(env, region) == Failure("LIVEKIT_URL is not defined")
  {
    assert NotDefined(DefaultUrlKey) == "LIVEKIT_URL is not defined";
  }

  /** A region's key is never the default key: it is longer. */
  lemma RegionKeyIsNotDefault(g: string)
    requires g != ""
    ensures TargetKey(Some(g)) != DefaultUrlKey
  {
    assert |TargetKey(Some(g))| > |DefaultUrlKey|;
  }

  /** No silent fallback: once a region is given, the default entry has no
      influence on the outcome, whether it is set, changed or removed; an
      unconfigured region therefore fails even when the default is set. */
  lemma NoFallbackToDefault(env: Env, g: string, u: string)
    requires g != ""
    ensures GetLiveKitUrl(env[DefaultUrlKey := u], Some(g)) == GetLiveKitUrl(env, Some(g))
    ensures GetLiveKitUrl(env - {DefaultUrlKey}, Some(g)) == GetLiveKitUrl(env, Some(g))
    ensures TargetKey(Some(g)) !in env
            ==> GetLiveKitUrl(env[DefaultUrlKey := u], Some(g))
                == Failure(NotDefined(RegionKeyPrefix + Ascii.Upper(g)))
  {
    RegionKeyIsNotDefault(g);
  }

  /** Two non-empty regions select the same key exactly when they differ only
      in letter case. */
  lemma RegionKeysAgreeIff(g1: string, g2: string)
    requires g1 != "" && g2 != ""
    ensures TargetKey(Some(g1)) == TargetKey(Some(g2)) <==> Ascii.SameIgnoringCase(g1, g2)
  {
    var k1, k2 := TargetKey(Some(g1)), TargetKey(Some(g2));
    if k1 == k2 {
      assert Ascii.Upper(g1) == k1[|RegionKeyPrefix|..];
      assert Ascii.Upper(g2) == k2[|RegionKeyPrefix|..];
    }
    Ascii.UpperAgreesIff(g1, g2);
  }

  /** Regions that differ only in letter case resolve identically. */
  lemma ResolveIgnoresCase(env: Env, g1: string, g2: string)
    requires Ascii.SameIgnoringCase(g1, g2)
    ensures GetLiveKitUrl(env, Some(g1)) == GetLiveKitUrl(env, Some(g2))
  {
    if g1 != "" {
      RegionKeysAgreeIff(g1, g2);
    }
  }

  /** Region "eu" with no `LIVEKIT_URL_EU` set fails with a message naming
      that key, whatever the default holds. */
  lemma UnsetEuRegionFails(env: Env)
    requires "LIVEKIT_URL_EU" !in env
    ensures GetLiveKitUrl(env, Some("eu")) == Failure("LIVEKIT_URL_EU is not defined")
  {
    assert Ascii.Upper("eu") == "EU";
    assert TargetKey(Some("eu")) == "LIVEKIT_URL_EU";
    assert NotDefined("LIVEKIT_URL_EU") == "LIVEKIT_URL_EU is not defined";
  }
}

=== FILE: search_params.dfy ===
/** Query strings as the route reads and writes them: the first-match lookup
    of `URLSearchParams.get`, the verbatim `name=value&...` text the route
    builds, and the splitting a receiver applies to read it back. What a URL
    parser and a form parser do to the characters themselves is not
    modelled; `SurvivesTransport` and `EndsVisibly` name the values on which
    that processing changes nothing. */
module SearchParams {
  import opened Wrappers
  import opened Text

  /** Decoded query parameters in order of appearance. */
  type Params = seq<(string, string)>

  /** `searchParams.get(name)`: the value of the first pair called `name`,
      or `null` when no pair has that name. */
  function Get(ps: Params, name: string): (v: Option<string>)
    ensures v.None? <==> forall i :: 0 <= i < |ps| ==> ps[i].0 != name
    ensures v.Some? ==> exists i :: 0 <= i < |ps| && ps[i] == (name, v.value)
                                    && forall j :: 0 <= j < i ==> ps[j].0 != name
  {
    if ps == [] then None
    else if ps[0].0 == name then Some(ps[0].1)
    else
      var v := Get(ps[1..], name);
      assert forall i :: 1 <= i < |ps| ==> ps[i] == ps[1..][i - 1];
      v
  }

  /** `name=value`, inserted verbatim. */
  function Pair(p: (string, string)): string
  {
    p.0 + "=" + p.1
  }

  /** The pairs joined by '&', with nothing encoded. */
  function Serialize(ps: Params): string
  {
    if ps == [] then ""
    else if |ps| == 1 then Pair(ps[0])
    else Pair(ps[0]) + "&" + Serialize(ps[1..])
  }

  /** Two pairs serialize around a single '&'. */
  lemma SerializeTwo(a: (string, string), b: (string, string))
    ensures Serialize([a, b]) == (a.0 + "=") + a.1 + ("&" + b.0 + "=") + b.1
  {
    assert [a, b][1..] == [b];
  }

  /** Three pairs serialize around two '&'. */
  lemma SerializeThree(a: (string, string), b: (string, string), c: (string, string))
    ensures Serialize([a, b, c])
            == (a.0 + "=") + a.1 + ("&" + b.0 + "=") + b.1 + ("&" + c.0 + "=") + c.1
  {
    assert [a, b, c][1..] == [b, c];
    SerializeTwo(b, c);
  }

  /** Splitting one segment at its first '='; a segment without '=' is a name
      with the empty value. */
  function NameValue(segment: string): (p: (string, string))
  {
    var k := IndexOf(segment, '=');
    if k == |segment| then (segment, "") else (segment[..k], segment[k + 1..])
  }

  /** The receiving side of a query string: split at every '&', skip empty
      segments, split each segment at its first '='. */
  function Parse(q: string): (ps: Params)
    decreases |q|
  {
    if q == [] then []
    else
      var i := IndexOf(q, '&');
      var rest := if i == |q| then [] else Parse(q[i + 1..]);
      if i == 0 then rest else [NameValue(q[..i])] + rest
  }

  /** The query component of a URL: what lies after the first '?', up to the
      first '#' that starts the fragment. */
  function QueryOf(url: string): (q: string)
  {
    var beforeFragment := url[..IndexOf(url, '#')];
    var i := IndexOf(beforeFragment, '?');
    if i == |beforeFragment| then "" else beforeFragment[i + 1..]
  }

  /** A name the round trip reads back: no separator of either kind. */
  predicate PlainName(n: string)
  {
    '&' !in n && '=' !in n
  }

  /** A value the round trip reads back: no pair separator. */
  predicate PlainValue(v: string)
  {
    '&' !in v
  }

  /** A value the WHATWG URL parser and the form decoder hand back as it was
      sent: the URL parser deletes tab, LF and CR anywhere in a URL, the form
      decoder turns '+' into a space and decodes '%' escapes. (Characters the
      URL parser percent-encodes are decoded again and need no exclusion.) */
  predicate SurvivesTransport(v: string)
  {
    '\t' !in v && '\n' !in v && '\r' !in v && '+' !in v && '%' !in v
  }

  /** A value that may end a URL: the URL parser strips trailing C0 controls
      and spaces (U+0000 to U+0020) from the whole URL. */
  predicate EndsVisibly(v: string)
  {
    v == [] || v[|v| - 1] as int > 0x20
  }

  predicate Plain(ps: Params)
  {
    forall i :: 0 <= i < |ps| ==> PlainName(ps[i].0) && PlainValue(ps[i].1)
  }

  lemma NameValuePair(p: (string, string))
    requires PlainName(p.0)
    ensures NameValue(Pair(p)) == p
  {
    var s := Pair(p);
    assert s == p.0 + ['='] + p.1;
    IndexOfSplit(p.0, '=', p.1);
    assert s[..|p.0|] == p.0;
    assert s[|p.0| + 1..] == p.1;
  }

  lemma ParseLast(a: string)
    requires a != [] && '&' !in a
    ensures Parse(a) == [NameValue(a)]
  {
    IndexOfAbsent(a, '&');
    assert a[..|a|] == a;
  }

  lemma ParseCons(a: string, b: string)
    requires a != [] && '&' !in a
    ensures Parse(a + "&" + b) == [NameValue(a)] + Parse(b)
  {
    var q := a + "&" + b;
    IndexOfSplit(a, '&', b);
    assert q == a + ['&'] + b;
    assert q[..|a|] == a;
    assert q[|a| + 1..] == b;
  }

  /** A query of one plain pair reads back as that pair. */
  lemma ParseOnePair(p: (string, string))
    requires PlainName(p.0) && PlainValue(p.1)
    ensures Parse(Pair(p)) == [p]
  {
    NameValuePair(p);
    ParseLast(Pair(p));
  }

  /** Parsing is the inverse of serializing, for names and values free of
      separators. */
  lemma {:induction false} ParseSerialize(ps: Params)
    requires Plain(ps)
    ensures Parse(Serialize(ps)) == ps
    decreases |ps|
  {
    if ps == [] {
    } else {
      var head := Pair(ps[0]);
      assert '&' !in head by {
        assert PlainName(ps[0].0) && PlainValue(ps[0].1);
      }
      NameValuePair(ps[0]);
      if |ps| == 1 {
        ParseLast(head);
      } else {
        assert Plain(ps[1..]) by {
          forall i | 0 <= i < |ps[1..]|
            ensures PlainName(ps[1..][i].0) && PlainValue(ps[1..][i].1)
          {
            assert ps[1..][i] == ps[i + 1];
          }
        }
        ParseSerialize(ps[1..]);
        ParseCons(head, Serialize(ps[1..]));
        assert ps == [ps[0]] + ps[1..];
      }
    }
  }

  /** The query component of `base?q` is `q`, when the base holds neither '?'
      nor '#' and the query holds no '#'. */
  lemma QueryOfUrl(base: string, q: string)
    requires '?' !in base && '#' !in base && '#' !in q
    ensures QueryOf(base + "?" + q) == q
  {
    var url := base + "?" + q;
    assert '#' !in url;
    IndexOfAbsent(url, '#');
    assert url[..|url|] == url;
    IndexOfSplit(base, '?', q);
    assert url == base + ['?'] + q;
    assert url[|base| + 1..] == q;
  }

  /** Whatever follows the first '#' is the fragment and does not reach the
      query. */
  lemma QueryOfFragment(u: string, fragment: string)
    requires '#' !in u
    ensures QueryOf(u + "#" + fragment) == QueryOf(u)
  {
    var url := u + "#" + fragment;
    assert url == u + ['#'] + fragment;
    IndexOfSplit(u, '#', fragment);
    IndexOfAbsent(u, '#');
    assert url[..|u|] == u[..|u|];
  }

  /** The query of `base?q#fragment` is `q`. */
  lemma QueryOfUrlWithFragment(base: string, q: string, fragment: string)
    requires '?' !in base && '#' !in base && '#' !in q
    ensures QueryOf(base + "?" + q + "#" + fragment) == q
  {
    assert '#' !in base + "?" + q;
    QueryOfFragment(base + "?" + q, fragment);
    QueryOfUrl(base, q);
  }

  /** A character other than the separators appears in the serialization
      only where it appears in some name or value. */
  lemma {:induction false} SerializeAvoids(ps: Params, c: char)
    requires c != '&' && c != '='
    requires forall i :: 0 <= i < |ps| ==> c !in ps[i].0 && c !in ps[i].1
    ensures c !in Serialize(ps)
    decreases |ps|
  {
    if |ps| > 1 {
      SerializeAvoids(ps[1..], c);
      assert c !in Pair(ps[0]);
    } else if |ps| == 1 {
      assert c !in Pair(ps[0]);
    }
  }
}

=== FILE: text.dfy ===
/** Searching a string for a separator character. */
module Text {

  /** Index of the first occurrence of `c` in `s`, or `|s|` when there is
      none. */
  function IndexOf(s: string, c: char): (i: nat)
    ensures i <= |s|
    ensures i < |s| ==> s[i] == c
    ensures forall j :: 0 <= j < i ==> s[j] != c
  {
    if s == [] then 0
    else if s[0] == c then 0
    else 1 + IndexOf(s[1..], c)
  }

  /** The first occurrence is determined by where `c` first appears. */
  lemma IndexOfSplit(a: string, c: char, b: string)
    requires c !in a
    ensures IndexOf(a + [c] + b, c) == |a|
  {
    var s := a + [c] + b;
    var i := IndexOf(s, c);
    assert s[|a|] == c;
  }

  lemma IndexOfAbsent(s: string, c: char)
    requires c !in s
    ensures IndexOf(s, c) == |s|
  {
  }
}

=== FILE: wrappers.dfy ===
/** Option and Result: the shapes of JavaScript's nullable values and of
    operations that either return or throw. */
module Wrappers {

  /** A value that may be absent: `None` stands for JavaScript's `null` or
      `undefined`. */
  datatype Option<+T> = None | Some(value: T)

  /** The outcome of an operation that either returns `value` or throws an
      `Error` carrying `error`. */
  datatype Result<+T, +E> = Success(value: T) | Failure(error: E)
}
